=== FILE: README.md ===
# AP World dates matching game — session model

A Dafny model of the game session of `APWorldDatesGame`, the browser game in
which a player pairs historical dates with events. The DOM is gone: the session
is an immutable record and every event handler and timer callback is a pure
transition on it.

- `Wrappers` — `Option`, the model's `null`.
- `Shuffling` — `shuffleArray` (Fisher–Yates) with the random draws supplied by
  the caller, and the display order of a rendered list.
- `MatchSets` — the match map `matches` (event originalIndex → date
  originalIndex), `removeMatchesForItems` plus the insertion of `createMatch`,
  and counting facts used by the submission policy.
- `Game` — the session (`currentPeriod`, `currentEvents`, both display orders,
  `matches`, the grade class of each pair, the connector lines,
  `selectedDate`, `selectedEvent`, `isSubmitted`) and its transitions: item
  click, `createMatch`, drop, `clearSelections`, `submitAnswers` with its three
  outcomes, `retryIncorrect`, `autoRetryPartialCorrect`, `clearAll`, connector
  redraw on resize, period change and replay.
- `Invariants` — the invariant `Sound` (both lists rendered with every index
  once, the match map injective, every index in range, one grade per pair,
  never both items selected) and the stronger `Valid` (sound, and the
  connector lines are exactly the pairs); the command machine in two
  variants, with `onPeriodChange` as written and corrected; the preservation
  of `Sound` by every command of both and of `Valid` by every command of the
  corrected one; and the properties of whole plays.

Modelling choices:

- An element is identified by its list and its originalIndex. Within one list
  each originalIndex is rendered once (`Shuffling.DisplayOrder`), so element
  identity and index identity coincide.
- The `matched`/`correct`/`incorrect` classes are game state: they are kept as
  a map from each pair's event to a `Grade`. The source reads them from the
  date element; since the match map is injective the two readings agree.
- Connector lines are a map from `Link(date, event)` (the element id
  `connection-<date>-<event>`) to their style; coordinates are not modelled.
- Timers are transitions: the 1500 ms `autoRetryPartialCorrect` callback is
  the `AutoContinueTimer` command; the 1000 ms completion screen and the
  3000 ms message removal change no game state.
- `Math.random` is replaced by draws supplied by the caller: the draw for loop
  index `i` is the swap index `j`, in `0 .. i`.
- Drag data that fails to parse is `None`; a parsed payload carries one of the
  two lists.

## Model

| member | source | states |
|---|---|---|
| Shuffling.Shuffle | script.js:516-521 | The shuffled array has the same length and the same elements with the same multiplicities as the input, for every admissible sequence of random draws. |
| Shuffling.ShuffleDown | script.js:517-520 | The loop from index i down to 1 yields a rearrangement of its input and never touches the positions above i. |
| Shuffling.Swap | script.js:519 | Exchanging positions i and j puts each element at the other's place, leaves every other position alone and keeps the multiset of elements. |
| Shuffling.DisplayOrder | script.js:163-184 | A rendered list holds every originalIndex of the period exactly once: n entries, all distinct, each in 0 .. n-1. |
| MatchSets.RemoveMatchesFor | script.js:282-299 | Exactly the pairs whose event is e or whose date is d are deleted, every other pair keeps its date, and afterwards neither e nor d occurs in the map. |
| MatchSets.Connect | script.js:258-299 | After matching date d with event e, e maps to d; every other event keeps its date unless that date was d, in which case it is unmatched; an injective map stays injective. |
| MatchSets.CorrectCountIsAll | script.js:315-347 | The count of correct pairs equals the number of pairs exactly when every pair is correct. |
| MatchSets.CoverageBound | script.js:347-350 | A match map over events 0 .. n-1 has at most n pairs, and has n only when every event is matched. |
| MatchSets.Uncovered | script.js:350-352 | Fewer pairs than events leaves some event unmatched. |
| Game.Initial | script.js:2-9 | Before any period is chosen there is no period, no events, no pair, grade or line, nothing selected, and the board is open. |
| Game.CreateMatch | script.js:258-299 | The new pair is recorded and shows matched with its own connector; every pair sharing its date or event loses its grade and line; every other pair, grade and line is unchanged; both selections are cleared; injectivity is kept. |
| Game.Click | script.js:218-256 | A submitted board ignores clicks; clicking the selected item deselects it; clicking another item replaces the selection of its list; if the other list has a selection the two are matched as by createMatch. |
| Game.ClearSelections | script.js:693-702 | Both selections become empty and nothing else changes. |
| Game.Drop | script.js:560-602 | A drop while submitted, with unparsable data, within one list, or of an item not rendered changes nothing; otherwise the dragged and target items are matched exactly as createMatch does. |
| Game.SubmitAnswers | script.js:311-357 | With no matches nothing happens; otherwise the board is submitted, the pairs are unchanged, each is graded correct iff its event and date indexes agree and incorrect otherwise, its line is restyled to the grade, and the outcome is Complete iff all pairs are correct and cover the event count, AutoContinue iff all are correct and fewer, NeedsRetry otherwise. |
| Game.Grading | script.js:318-342 | Every pair, and nothing else, receives a class: correct exactly when its event and date indexes agree, incorrect exactly when they differ. |
| Game.Judge | script.js:347-356 | The outcome policy stated as three if-and-only-if conditions on correctness of all pairs and on the pair count against the event count. |
| Game.Restyle | script.js:331-340 | Each pair's line is redrawn in its grade, replacing the line with the same id; other lines are kept. |
| Game.RetryIncorrect | script.js:359-387 | Exactly the pairs graded incorrect are removed, with their grades and lines; every other pair, grade and line is kept; the board is reopened. |
| Game.AutoRetryPartialCorrect | script.js:426-439 | The board is reopened and nothing else of the game state changes. |
| Game.ClearAll | script.js:389-408 | Whatever the prior state, no pairs, grades, lines or selections remain and the board is open; the period and the rendered lists are kept. |
| Game.Redraw | script.js:96-129 | After a resize there is one line per pair whose two items are rendered, styled as the pair's items, and nothing else changes. |
| Game.PeriodChange | script.js:131-161 | Without a period id or data nothing happens; an unknown id is only recorded; a known period yields its events reshuffled, both lists rendered with every index once, and nothing matched, graded, selected, submitted or drawn. |
| Game.PeriodChangeAsWritten | script.js:131-161 | The handler as written loads the chosen period's events (the same events with the same multiplicities, reshuffled), resets the match state and re-renders, but keeps every connector line of the previous board. |
| Game.Replay | script.js:419-424 | Without a current period, or with one the catalog lacks, nothing changes; otherwise replaying yields a fresh board holding that period's own events, reshuffled, with the lines cleared as the corrected period change does. |
| Game.ReplayAsWritten | script.js:419-424 | Without a current period, or with one the catalog lacks, nothing changes; otherwise the board is reset to that period's own events, reshuffled, as by the period change as written, keeping the previous board's connector lines. |
| Invariants.CreateMatchValid | script.js:258-299 | Matching two rendered items of a valid session keeps the session valid. |
| Invariants.ClickValid | script.js:218-256 | A click on a rendered item keeps the session valid. |
| Invariants.DropValid | script.js:560-602 | A drop on a rendered item keeps the session valid. |
| Invariants.SubmitMirror | script.js:318-342 | After a submission grades and lines are again exactly one per pair, with the line styled as the pair's grade. |
| Invariants.SubmitValid | script.js:311-357 | A submission keeps the session valid. |
| Invariants.RetryValid | script.js:359-387 | A retry keeps the session valid. |
| Invariants.RedrawKeepsValidSession | script.js:96-129 | On a valid session a redraw changes nothing: the lines already mirror the pairs. |
| Invariants.Step | script.js:73-94 | Each command reaches its handler (the period select, the buttons, resize, the item click and drop listeners at script.js:201-213, Escape at script.js:619-620); only choosing a period and replaying change the period or re-render the lists, only a submission closes the board, and only a click or a drop forms a pair. |
| Invariants.StepValid | script.js:73-94 | With the corrected period change, every enabled command — click, drop, submit, retry, the auto-continue timer, clear-all, Escape, resize, period choice, replay — keeps the session valid, lines included. |
| Invariants.RunValid | script.js:73-94 | With the corrected period change, any executable sequence of commands from a valid session ends in a valid session. |
| Invariants.CreateMatchSound | script.js:258-299 | Matching two in-range items of a sound session keeps it sound, whatever lines it carries. |
| Invariants.ClickSound | script.js:218-256 | A click on a rendered item keeps the session sound. |
| Invariants.DropSound | script.js:560-602 | A drop on a rendered item keeps the session sound. |
| Invariants.SubmitSound | script.js:311-357 | A submission keeps the session sound: the pairs are unchanged and each has exactly one grade. |
| Invariants.RetrySound | script.js:359-387 | A retry keeps the session sound. |
| Invariants.FreshSound | script.js:131-161 | A freshly rendered board is sound, even with stale lines left on it. |
| Invariants.StepSound | script.js:73-94 | Every enabled command of either machine — with `onPeriodChange` as written or corrected — keeps the session sound. |
| Invariants.RunSound | script.js:73-94 | Any executable sequence of commands of either machine from a sound session ends in a sound session. |
| Invariants.RedrawRepairsLines | script.js:96-129 | A resize of any sound session, stale lines included, leaves exactly one line per pair: the session is valid again. |
| Invariants.PlayKeepsMatchesInjective | script.js:282-299 | However the game is played from the initial state, by the program as written or with the corrected period change, no date is matched to two events and the session stays sound; only with the corrected period change are the lines always exactly the pairs. |
| Invariants.NeedsRetryIffSomeIncorrect | script.js:347-356 | When every matched event is one of the period's, as on every valid board, the retry outcome occurs exactly when some pair is wrong. |
| Invariants.CompleteCoversAnswerKey | script.js:347-349 | When every matched event is one of the period's, a complete submission has matched every event of the period to its own date. |
| Invariants.AutoContinueReopens | script.js:350-352 | After an all-correct partial submission and its timer the board is open, every pair is kept and graded correct, and some event is still unmatched. |
| Invariants.RetryKeepsExactlyCorrect | script.js:359-387 | From any session with at least one pair, stale lines or not, submitting then retrying leaves exactly the correct pairs, all graded correct, on an open board. |
| Invariants.ThreeEventExample | script.js:311-387 | With three events, matching event 1 to date 1 and event 0 to date 2, submission grades them correct and incorrect and asks for a retry, and the retry keeps only event 1's pair. |
| Invariants.DropIsTwoClicks | script.js:577-593 | Dropping a rendered item of either list onto an item of the other equals clearing the selections and clicking the dragged item, then the target. |
| Invariants.PeriodChangeAsWrittenLeavesStaleLines | script.js:131-161 | A valid completed one-event board changed to a period as written ends with an empty match map but a connector line still drawn. |
| Invariants.StaleLinesReachedByPlay | script.js:131-161 | In the program as written, the play "choose a one-event period, click its date, click its event, submit, replay" is executable from the initial state and ends with no pair but the line `connection-0-0` still drawn. |
| Invariants.PeriodChangeValid | script.js:131-161 | With the lines cleared, choosing a period always yields a valid session. |

## Findings

| source | as written | input that shows it | evidently intended | confidence | as-written member | corrected member |
|---|---|---|---|---|---|---|
| script.js:131-161 | `onPeriodChange` (also reached from `replay`) clears the matches and re-renders the items but never calls `clearAllConnectionLines`, so the previous board's connector lines stay drawn | complete a one-event period (event 0 matched to date 0, line `connection-0-0` drawn), then replay or choose a period: matches is empty, the line is still there until a resize or clear-all | a period change clears the lines together with the matches, as `clearAll` does | medium, not executed | Invariants.StaleLinesReachedByPlay | Game.PeriodChange |

`Game.Replay` uses the corrected `Game.PeriodChange` and
`Game.ReplayAsWritten` the handler as written. The command machine of
`Invariants` is run in both variants: `Sound` holds for both, `Valid` (lines
mirror the pairs) only for the corrected one, and `RedrawRepairsLines` shows
that a resize restores it.

## Left out

- `loadData` and `showError`: fetching and parsing the catalog is I/O; the catalog is a parameter (`None` while not loaded).
- `startConfetti` and `showCompletion`: canvas animation with random floats and frame callbacks, and panel visibility; neither changes game state.
- `drawConnectionLine`, `updateSvgSize` and the geometry of `redrawAllConnectionLines`: floating-point layout; lines are modelled by id and style only.
- `hideCorrectMatches`, `showHiddenCorrectMatches`, `onHideCorrectToggle` and `showAutoRetryMessage`: they change visibility and insert a message, not game state.
- `changePeriod`: hides panels and resets the select element; it leaves the game state as it is.
- `updateSubmitButton` and button visibility: the submit guard on an empty match map is modelled inside `SubmitAnswers`; which buttons are shown is not, so the commands may be issued in any order.
- `onDragStart`, `onDragOver`, `onDragEnter`, `onDragLeave`, `onDragEnd` and the CSS classes `selected`, `dragging`, `drag-over`, `hidden-correct`: presentation only.
- `onKeyDown`: Enter and Space call the click handler and Escape calls `clearSelections`, both modelled; the key mapping itself is not.
- Game.Drop: a parsed payload whose `type` is neither `date` nor `event` (possible only for drag data from outside the page) is not modelled.
- `setTimeout` scheduling: timers are modelled as the commands they run, not as delays.

=== FILE: invariants.dfy ===
/**
  The invariant every reachable session keeps, the commands a player and the
  timers can issue, and the properties of whole play sequences: the match map
  stays injective, connector lines mirror the pairs, a complete submission
  covers the whole answer key, and retrying keeps exactly the correct pairs.
 */
module Invariants {
  import opened Wrappers
  import opened Shuffling
  import opened MatchSets
  import opened Game

  /** The connector lines are exactly one per pair, styled as the pair's items. */
  ghost predicate Mirror(s: Session) {
    && (forall l :: l in s.lines <==> IsLinkOf(s.matches, l))
    && (forall e | e in s.matches ::
          Link(s.matches[e], e) in s.lines && s.lines[Link(s.matches[e], e)] == GradeOf(s.grades, e))
  }

  /** The invariant of the game state apart from the connector lines: both
      lists rendered with every index once, no date matched to two events,
      every index in range, one grade per pair, never both items selected. */
  ghost predicate Sound(s: Session) {
    var n := |s.events|;
    && IsDisplayOrder(s.dateOrder, n)
    && IsDisplayOrder(s.eventOrder, n)
    && Injective(s.matches)
    && (forall e | e in s.matches :: 0 <= e < n && 0 <= s.matches[e] < n)
    && s.grades.Keys == s.matches.Keys
    && (s.selectedDate.Some? ==> 0 <= s.selectedDate.value < n)
    && (s.selectedEvent.Some? ==> 0 <= s.selectedEvent.value < n)
    && (s.selectedDate.None? || s.selectedEvent.None?)
  }

  /** The invariant of the game session: sound, and the lines drawn are
      exactly the pairs. */
  ghost predicate Valid(s: Session) {
    Sound(s) && Mirror(s)
  }

  /** Everything that can change the session: the handlers bound to the
      items, the buttons and the window, and the timer callbacks. */
  datatype Command =
    | ClickItem(kind: Kind, idx: int)
    | DropItem(payload: Option<DragPayload>, dropKind: Kind, dropIdx: int)
    | Submit
    | Retry
    | AutoContinueTimer
    | ClearAllButton
    | EscapeKey
    | Resize
    | SelectPeriod(catalog: Option<map<string, Period>>, id: string, draws: Draws)
    | ReplayButton(replayCatalog: Option<map<string, Period>>, replayDraws: Draws)

  /** Which period change the machine runs: `onPeriodChange` as written,
      which keeps the previous board's lines, or corrected to clear them. */
  datatype Variant = AsWritten | Corrected

  /** A command can be issued: items are clicked and dropped on only while
      rendered, and shuffles draw indexes in range. */
  predicate Enabled(s: Session, c: Command) {
    match c
    case ClickItem(kind, idx) => idx in Order(s, kind)
    case DropItem(_, dropKind, dropIdx) => dropIdx in Order(s, dropKind)
    case SelectPeriod(catalog, id, draws) =>
      Loads(catalog, id) ==> DrawsFit(draws, |catalog.value[id].events|)
    case ReplayButton(catalog, draws) =>
      s.period.Some? && Loads(catalog, s.period.value) ==>
        DrawsFit(draws, |catalog.value[s.period.value].events|)
    case _ => true
  }

  function Step(v: Variant, s: Session, c: Command): (r: Session)
    requires Enabled(s, c)
    // only choosing a period and replaying change the period or re-render the lists
    ensures !c.SelectPeriod? && !c.ReplayButton? ==> SameBoard(s, r)
    // only a submission closes the board
    ensures r.submitted && !s.submitted ==> c.Submit?
    // only a click or a drop forms a pair
    ensures forall e | e in r.matches :: (e in s.matches && r.matches[e] == s.matches[e]) || c.ClickItem? || c.DropItem?
  {
    match c
    case ClickItem(kind, idx) => Click(s, kind, idx)
    case DropItem(payload, dropKind, dropIdx) => Drop(s, payload, dropKind, dropIdx)
    case Submit => SubmitAnswers(s).session
    case Retry => RetryIncorrect(s)
    case AutoContinueTimer => AutoRetryPartialCorrect(s)
    case ClearAllButton => ClearAll(s)
    case EscapeKey => ClearSelections(s)
    case Resize => Redraw(s)
    case SelectPeriod(catalog, id, draws) =>
      if v == AsWritten then PeriodChangeAsWritten(s, catalog, id, draws) else PeriodChange(s, catalog, id, draws)
    case ReplayButton(catalog, draws) =>
      if v == AsWritten then ReplayAsWritten(s, catalog, draws) else Replay(s, catalog, draws)
  }

  /** Every command of `cmds` is enabled when its turn comes. */
  predicate Executable(v: Variant, s: Session, cmds: seq<Command>)
    decreases |cmds|
  {
    |cmds| == 0 || (Enabled(s, cmds[0]) && Executable(v, Step(v, s, cmds[0]), cmds[1..]))
  }

  function Run(v: Variant, s: Session, cmds: seq<Command>): Session
    requires Executable(v, s, cmds)
    decreases |cmds|
  {
    if |cmds| == 0 then s else Run(v, Step(v, s, cmds[0]), cmds[1..])
  }

  /* ---------- The invariant is kept ---------- */

  lemma InitialValid()
    ensures Valid(Initial())
  {
  }

  /** A fresh board with no lines satisfies the invariant. */
  lemma FreshValid(r: Session)
    requires FreshBoard(r, |r.events|) && r.lines == map[]
    ensures Valid(r)
  {
  }

  lemma CreateMatchValid(s: Session)
    requires Valid(s.(selectedDate := None, selectedEvent := None))
    requires s.selectedDate.Some? && 0 <= s.selectedDate.value < |s.events|
    requires s.selectedEvent.Some? && 0 <= s.selectedEvent.value < |s.events|
    ensures Valid(CreateMatch(s))
  {
  }

  lemma ClickValid(s: Session, kind: Kind, idx: int)
    requires Valid(s) && idx in Order(s, kind)
    ensures Valid(Click(s, kind, idx))
  {
    if !s.submitted {
      var t := WithSelection(s, kind, if Selection(s, kind) == Some(idx) then None else Some(idx));
      if t.selectedDate.Some? && t.selectedEvent.Some? {
        assert t.(selectedDate := None, selectedEvent := None) == s.(selectedDate := None, selectedEvent := None);
        CreateMatchValid(t);
      }
    }
  }

  lemma DropValid(s: Session, payload: Option<DragPayload>, dropKind: Kind, dropIdx: int)
    requires Valid(s) && dropIdx in Order(s, dropKind)
    ensures Valid(Drop(s, payload, dropKind, dropIdx))
  {
    if !s.submitted && payload.Some? {
      var drag := payload.value;
      if drag.kind != dropKind && drag.index in Order(s, drag.kind) {
        var t := ClearSelections(s);
        var u := if drag.kind == Date then t.(selectedDate := Some(drag.index), selectedEvent := Some(dropIdx))
                 else t.(selectedDate := Some(dropIdx), selectedEvent := Some(drag.index));
        assert u.(selectedDate := None, selectedEvent := None) == t;
        CreateMatchValid(u);
      }
    }
  }

  /** Submitting regrades every pair and restyles exactly its connector. */
  lemma SubmitMirror(s: Session)
    requires s.grades.Keys == s.matches.Keys && Mirror(s) && |s.matches| > 0
    ensures SubmitAnswers(s).session.grades.Keys == s.matches.Keys
    ensures Mirror(SubmitAnswers(s).session)
  {
  }

  lemma SubmitValid(s: Session)
    requires Valid(s)
    ensures Valid(SubmitAnswers(s).session)
  {
    if |s.matches| > 0 {
      SubmitMirror(s);
    }
  }

  lemma RetryValid(s: Session)
    requires Valid(s)
    ensures Valid(RetryIncorrect(s))
  {
  }

  /** A redraw only repairs lines: on a valid session it changes nothing. */
  lemma RedrawKeepsValidSession(s: Session)
    requires Valid(s)
    ensures Redraw(s) == s
  {
  }

  lemma StepValid(s: Session, c: Command)
    requires Valid(s) && Enabled(s, c)
    ensures Valid(Step(Corrected, s, c))
  {
    match c
    case ClickItem(kind, idx) => ClickValid(s, kind, idx);
    case DropItem(payload, dropKind, dropIdx) => DropValid(s, payload, dropKind, dropIdx);
    case Submit => SubmitValid(s);
    case Retry => RetryValid(s);
    case AutoContinueTimer =>
    case ClearAllButton =>
    case EscapeKey =>
    case Resize => RedrawKeepsValidSession(s);
    case SelectPeriod(catalog, id, draws) =>
      if Loads(catalog, id) { FreshValid(PeriodChange(s, catalog, id, draws)); }
    case ReplayButton(catalog, draws) =>
      if s.period.Some? && Loads(catalog, s.period.value) { FreshValid(Replay(s, catalog, draws)); }
  }

  lemma {:induction false} RunValid(s: Session, cmds: seq<Command>)
    requires Valid(s) && Executable(Corrected, s, cmds)
    ensures Valid(Run(Corrected, s, cmds))
    decreases |cmds|
  {
    if |cmds| > 0 {
      StepValid(s, cmds[0]);
      RunValid(Step(Corrected, s, cmds[0]), cmds[1..]);
    }
  }

  /* ---------- Soundness, with or without stale lines ---------- */

  lemma CreateMatchSound(s: Session)
    requires Sound(s.(selectedDate := None, selectedEvent := None))
    requires s.selectedDate.Some? && 0 <= s.selectedDate.value < |s.events|
    requires s.selectedEvent.Some? && 0 <= s.selectedEvent.value < |s.events|
    ensures Sound(CreateMatch(s))
  {
  }

  lemma ClickSound(s: Session, kind: Kind, idx: int)
    requires Sound(s) && idx in Order(s, kind)
    ensures Sound(Click(s, kind, idx))
  {
    if !s.submitted {
      var t := WithSelection(s, kind, if Selection(s, kind) == Some(idx) then None else Some(idx));
      if t.selectedDate.Some? && t.selectedEvent.Some? {
        assert t.(selectedDate := None, selectedEvent := None) == s.(selectedDate := None, selectedEvent := None);
        CreateMatchSound(t);
      }
    }
  }

  lemma DropSound(s: Session, payload: Option<DragPayload>, dropKind: Kind, dropIdx: int)
    requires Sound(s) && dropIdx in Order(s, dropKind)
    ensures Sound(Drop(s, payload, dropKind, dropIdx))
  {
    if !s.submitted && payload.Some? {
      var drag := payload.value;
      if drag.kind != dropKind && drag.index in Order(s, drag.kind) {
        var t := ClearSelections(s);
        var u := if drag.kind == Date then t.(selectedDate := Some(drag.index), selectedEvent := Some(dropIdx))
                 else t.(selectedDate := Some(dropIdx), selectedEvent := Some(drag.index));
        assert u.(selectedDate := None, selectedEvent := None) == t;
        CreateMatchSound(u);
      }
    }
  }

  lemma SubmitSound(s: Session)
    requires Sound(s)
    ensures Sound(SubmitAnswers(s).session)
  {
    if |s.matches| > 0 {
      var r := SubmitAnswers(s).session;
      assert r == s.(submitted := true, grades := s.grades + Grading(s.matches), lines := r.lines);
      assert r.grades.Keys == s.matches.Keys;
    }
  }

  lemma RetrySound(s: Session)
    requires Sound(s)
    ensures Sound(RetryIncorrect(s))
  {
  }

  /** A fresh board is sound whatever lines it carries. */
  lemma FreshSound(r: Session)
    requires FreshBoard(r, |r.events|)
    ensures Sound(r)
  {
  }

  /** Every command of either machine keeps the session sound. */
  lemma StepSound(v: Variant, s: Session, c: Command)
    requires Sound(s) && Enabled(s, c)
    ensures Sound(Step(v, s, c))
  {
    match c
    case ClickItem(kind, idx) => ClickSound(s, kind, idx);
    case DropItem(payload, dropKind, dropIdx) => DropSound(s, payload, dropKind, dropIdx);
    case Submit => SubmitSound(s);
    case Retry => RetrySound(s);
    case AutoContinueTimer =>
    case ClearAllButton =>
    case EscapeKey =>
    case Resize =>
    case SelectPeriod(catalog, id, draws) =>
      if Loads(catalog, id) { FreshSound(Step(v, s, c)); }
    case ReplayButton(catalog, draws) =>
      if s.period.Some? && Loads(catalog, s.period.value) { FreshSound(Step(v, s, c)); }
  }

  lemma {:induction false} RunSound(v: Variant, s: Session, cmds: seq<Command>)
    requires Sound(s) && Executable(v, s, cmds)
    ensures Sound(Run(v, s, cmds))
    decreases |cmds|
  {
    if |cmds| > 0 {
      StepSound(v, s, cmds[0]);
      RunSound(v, Step(v, s, cmds[0]), cmds[1..]);
    }
  }

  /** A resize repairs the lines of any sound session: afterwards they are
      exactly the pairs again. */
  lemma RedrawRepairsLines(s: Session)
    requires Sound(s)
    ensures Valid(Redraw(s))
  {
  }

  /** The key invariant: however the game is played from the initial state,
      with `onPeriodChange` as written or corrected, no date is matched to two
      events and the session stays sound; with the corrected period change
      the lines drawn are moreover exactly the pairs. */
  lemma PlayKeepsMatchesInjective(v: Variant, cmds: seq<Command>)
    requires Executable(v, Initial(), cmds)
    ensures Injective(Run(v, Initial(), cmds).matches)
    ensures Sound(Run(v, Initial(), cmds))
    ensures v == Corrected ==> Mirror(Run(v, Initial(), cmds))
  {
    InitialValid();
    RunSound(v, Initial(), cmds);
    if v == Corrected {
      RunValid(Initial(), cmds);
    }
  }

  /* ---------- Submission outcomes ---------- */

  /** When every matched event is one of the period's (as on a valid board),
      there cannot be more pairs than events, so the retry button appears
      exactly when some pair is wrong. */
  lemma NeedsRetryIffSomeIncorrect(s: Session)
    requires forall e | e in s.matches :: 0 <= e < |s.events|
    requires |s.matches| > 0
    ensures SubmitAnswers(s).outcome == NeedsRetry <==> exists e | e in s.matches :: s.matches[e] != e
  {
    CoverageBound(s.matches, |s.events|);
  }

  /** A complete submission has matched every event to its own date. It
      needs only that every matched event is one of the period's, which a
      valid board guarantees. */
  lemma CompleteCoversAnswerKey(s: Session)
    requires forall e | e in s.matches :: 0 <= e < |s.events|
    ensures SubmitAnswers(s).outcome == Complete ==>
              forall i :: 0 <= i < |s.events| ==> i in s.matches && s.matches[i] == i
  {
    CoverageBound(s.matches, |s.events|);
  }

  /** After an all-correct partial submission and its timer the board is
      open again, every pair is still there, and some event is still
      unmatched. */
  lemma AutoContinueReopens(s: Session)
    ensures SubmitAnswers(s).outcome == AutoContinue ==>
      var r := AutoRetryPartialCorrect(SubmitAnswers(s).session);
      && !r.submitted
      && r.matches == s.matches
      && (forall e | e in r.matches :: r.grades[e] == Correct)
      && exists i :: 0 <= i < |s.events| && i !in r.matches
  {
    if SubmitAnswers(s).outcome == AutoContinue {
      Uncovered(s.matches, |s.events|);
    }
  }

  /** Submitting and then retrying keeps exactly the correct pairs, each still
      graded correct, and reopens the board. */
  lemma RetryKeepsExactlyCorrect(s: Session)
    requires |s.matches| > 0
    ensures var r := RetryIncorrect(SubmitAnswers(s).session);
      && (forall e :: e in r.matches <==> e in s.matches && s.matches[e] == e)
      && AllCorrect(r.matches)
      && (forall e | e in r.matches :: r.grades[e] == Correct)
      && !r.submitted
  {
  }

  /** The worked example of three event pairs: event 1 matched to date 1 and
      event 0 to date 2. Submitting grades the first correct and the second
      incorrect and asks for a retry; retrying keeps only the first. */
  lemma ThreeEventExample(s: Session)
    requires |s.events| == 3
    requires s.matches == map[1 := 1, 0 := 2]
    ensures SubmitAnswers(s).outcome == NeedsRetry
    ensures SubmitAnswers(s).session.grades[1] == Correct
    ensures SubmitAnswers(s).session.grades[0] == Incorrect
    ensures RetryIncorrect(SubmitAnswers(s).session).matches == map[1 := 1]
  {
    var m := s.matches;
    assert 1 in m && m[1] == 1;
    assert 0 in m && m[0] == 2;
    assert !AllCorrect(m);
    var t := SubmitAnswers(s).session;
    assert t.matches == m;
    assert t.grades[1] == Correct && t.grades[0] == Incorrect;
    RetryOfExample(t);
  }

  lemma RetryOfExample(t: Session)
    requires t.matches == map[1 := 1, 0 := 2]
    requires 1 in t.grades && t.grades[1] == Correct
    requires 0 in t.grades && t.grades[0] == Incorrect
    ensures RetryIncorrect(t).matches == map[1 := 1]
  {
  }

  /* ---------- Drag and drop ---------- */

  /** A drop from one list onto the other forms the same match as clicking
      the dragged item and then the target with nothing selected. */
  lemma DropIsTwoClicks(s: Session, kind: Kind, i: int, j: int)
    requires !s.submitted && i in Order(s, kind)
    ensures Drop(s, Some(DragPayload(kind, i)), Other(kind), j)
         == Click(Click(ClearSelections(s), kind, i), Other(kind), j)
  {
  }

  /* ---------- Period changes ---------- */

  /** As written, choosing a period (or replaying) after a completed game
      leaves the old connector lines behind an empty match map. */
  lemma PeriodChangeAsWrittenLeavesStaleLines()
    ensures var completed := Session(Some("p"), [EventPair("1450", "x")], [0], [0],
                                map[0 := 0], map[0 := Correct], map[Link(0, 0) := Correct],
                                None, None, true);
      var catalog := Some(map["p" := Period("t", None, [EventPair("1450", "x")])]);
      var r := PeriodChangeAsWritten(completed, catalog, "p", Draws([], [], []));
      && Valid(completed)
      && r.matches == map[]
      && !Mirror(r)
  {
    var completed := Session(Some("p"), [EventPair("1450", "x")], [0], [0],
                        map[0 := 0], map[0 := Correct], map[Link(0, 0) := Correct],
                        None, None, true);
    var catalog := Some(map["p" := Period("t", None, [EventPair("1450", "x")])]);
    var r := PeriodChangeAsWritten(completed, catalog, "p", Draws([], [], []));
    assert Link(0, 0) in r.lines && !IsLinkOf(r.matches, Link(0, 0));
  }

  /** The stale line arises in an actual play of the program as written:
      choose a one-event period, click its date and its event, submit, and
      replay. */
  lemma StaleLinesReachedByPlay()
    ensures var cmds := [SelectPeriod(OneEventCatalog(), "p", Draws([], [], [])), ClickItem(Date, 0),
                         ClickItem(Event, 0), Submit, ReplayButton(OneEventCatalog(), Draws([], [], []))];
      && Executable(AsWritten, Initial(), cmds)
      && Run(AsWritten, Initial(), cmds).matches == map[]
      && Link(0, 0) in Run(AsWritten, Initial(), cmds).lines
  {
    var none := Draws([], [], []);
    var c0, c1, c2, c3, c4 := SelectPeriod(OneEventCatalog(), "p", none), ClickItem(Date, 0),
                              ClickItem(Event, 0), Submit, ReplayButton(OneEventCatalog(), none);
    var s0 := Initial();
    var s1 := Step(AsWritten, s0, c0);
    OneEventBoardShown();
    var s2 := Step(AsWritten, s1, c1);
    var s3 := Step(AsWritten, s2, c2);
    OneEventMatchedByClicks(s1);
    var s4 := Step(AsWritten, s3, c3);
    var s5 := Step(AsWritten, s4, c4);
    OneEventReplayKeepsLine(s3);
    RunCons(AsWritten, s4, c4, []);
    RunCons(AsWritten, s3, c3, [c4]);
    RunCons(AsWritten, s2, c2, [c3, c4]);
    RunCons(AsWritten, s1, c1, [c2, c3, c4]);
    RunCons(AsWritten, s0, c0, [c1, c2, c3, c4]);
  }

  /** Running a command and then the rest is stepping once, then running. */
  lemma RunCons(v: Variant, s: Session, c: Command, rest: seq<Command>)
    requires Enabled(s, c) && Executable(v, Step(v, s, c), rest)
    ensures Executable(v, s, [c] + rest)
    ensures Run(v, s, [c] + rest) == Run(v, Step(v, s, c), rest)
  {
    assert ([c] + rest)[1..] == rest;
  }

  /** The catalog of that play: one period `p` with a single event. */
  function OneEventCatalog(): Option<map<string, Period>> {
    Some(map["p" := Period("t", None, [EventPair("1450", "x")])])
  }

  lemma OneEventBoardShown()
    ensures var r := PeriodChangeAsWritten(Initial(), OneEventCatalog(), "p", Draws([], [], []));
      && r.period == Some("p") && r.dateOrder == [0] && r.eventOrder == [0]
      && r.matches == map[] && r.grades == map[] && r.lines == map[]
      && r.selectedDate.None? && r.selectedEvent.None? && !r.submitted
  {
  }

  lemma OneEventMatchedByClicks(s: Session)
    requires s.period == Some("p") && s.dateOrder == [0] && s.eventOrder == [0]
    requires s.matches == map[] && s.grades == map[] && s.lines == map[]
    requires s.selectedDate.None? && s.selectedEvent.None? && !s.submitted
    ensures var r := Click(Click(s, Date, 0), Event, 0);
      && r.period == Some("p") && r.matches == map[0 := 0] && Link(0, 0) in r.lines
  {
  }

  lemma OneEventReplayKeepsLine(s: Session)
    requires s.period == Some("p") && s.matches == map[0 := 0] && Link(0, 0) in s.lines
    ensures var r := ReplayAsWritten(SubmitAnswers(s).session, OneEventCatalog(), Draws([], [], []));
      && r.matches == map[] && Link(0, 0) in r.lines
  {
  }

  /** With the lines cleared, a period change always yields a valid board. */
  lemma PeriodChangeValid(s: Session, catalog: Option<map<string, Period>>, id: string, draws: Draws)
    requires Valid(s)
    requires Loads(catalog, id) ==> DrawsFit(draws, |catalog.value[id].events|)
    ensures Valid(PeriodChange(s, catalog, id, draws))
  {
    if Loads(catalog, id) {
      FreshValid(PeriodChange(s, catalog, id, draws));
    }
  }
}

=== FILE: match_sets.dfy ===
/**
  The match map of the game, `matches`: event originalIndex -> date
  originalIndex. Keys are unique because it is a map; values are kept unique
  by evicting every conflicting pair before a new one is inserted.
 */
module MatchSets {
  import opened Shuffling

  type MatchSet = map<int, int>

  /** No two events are matched to the same date. */
  predicate Injective(m: MatchSet) {
    forall e1, e2 | e1 in m && e2 in m && e1 != e2 :: m[e1] != m[e2]
  }

  /** A pair is correct when the event and the date come from the same
      event pair, i.e. carry the same originalIndex. */
  predicate AllCorrect(m: MatchSet) {
    forall e | e in m :: m[e] == e
  }

  /** The events whose pair is correct. */
  function CorrectEvents(m: MatchSet): set<int> {
    set e | e in m && m[e] == e
  }

  /** `removeMatchesForItems(dateIndex, eventIndex)`: deletes every pair whose
      event is `e` or whose date is `d`. Deleting the entry being visited
      while iterating a JavaScript `Map` is well defined, so the loop deletes
      exactly these pairs. */
  function RemoveMatchesFor(m: MatchSet, d: int, e: int): (r: MatchSet)
    ensures forall k :: k in r <==> k in m && k != e && m[k] != d
    ensures forall k | k in r :: r[k] == m[k]
    ensures e !in r && forall k | k in r :: r[k] != d
  {
    map k | k in m && k != e && m[k] != d :: m[k]
  }

  /** The match map after `createMatch` pairs date `d` with event `e`. */
  function Connect(m: MatchSet, d: int, e: int): (r: MatchSet)
    ensures e in r && r[e] == d
    ensures forall k | k != e :: k in r <==> k in m && m[k] != d
    ensures forall k | k in r && k != e :: r[k] == m[k]
    ensures Injective(m) ==> Injective(r)
  {
    RemoveMatchesFor(m, d, e)[e := d]
  }

  /** The submission counts correct pairs and compares the count with the
      number of pairs; the two agree exactly when every pair is correct. */
  lemma CorrectCountIsAll(m: MatchSet)
    ensures |CorrectEvents(m)| == |m| <==> AllCorrect(m)
  {
    assert |m.Keys| == |m|;
    if AllCorrect(m) {
      assert CorrectEvents(m) == m.Keys;
    } else {
      var e :| e in m && m[e] != e;
      SubsetSmaller(CorrectEvents(m), m.Keys, e);
    }
  }

  /** A set missing an element of a superset is strictly smaller. */
  lemma SubsetSmaller(a: set<int>, b: set<int>, x: int)
    requires a <= b && x in b && x !in a
    ensures |a| < |b|
  {
    SubsetNotLarger(a, b - {x});
    assert |b - {x}| == |b| - 1;
  }

  /** The originalIndexes `0 .. n - 1` as a set: the elements of `Range(n)`. */
  function IndexSet(n: nat): (r: set<int>)
    ensures forall k :: k in r <==> 0 <= k < n
  {
    set k | k in Range(n)
  }

  lemma {:induction false} IndexSetSize(n: nat)
    ensures |IndexSet(n)| == n
  {
    if n > 0 {
      IndexSetSize(n - 1);
      assert IndexSet(n) == IndexSet(n - 1) + {n - 1};
    }
  }

  /** A map whose events all lie in `0 .. n - 1` has at most `n` pairs, and has
      exactly `n` only when it matches every one of those events. */
  lemma CoverageBound(m: MatchSet, n: nat)
    requires forall e | e in m :: 0 <= e < n
    ensures |m| <= n
    ensures |m| == n ==> forall e :: 0 <= e < n ==> e in m
  {
    IndexSetSize(n);
    assert m.Keys <= IndexSet(n);
    assert |m.Keys| == |m|;
    if |m| == n {
      forall e | 0 <= e < n
        ensures e in m
      {
        if e !in m {
          SubsetSmaller(m.Keys, IndexSet(n), e);
        }
      }
    } else {
      SubsetNotLarger(m.Keys, IndexSet(n));
    }
  }

  /** A map with fewer than `n` pairs leaves some event of `0 .. n - 1` unmatched. */
  lemma Uncovered(m: MatchSet, n: nat)
    requires |m| < n
    ensures exists i :: 0 <= i < n && i !in m
  {
    var all := IndexSet(n);
    IndexSetSize(n);
    SubsetNotLarger(all * m.Keys, m.Keys);
    assert |m.Keys| == |m|;
    SplitSize(all, m.Keys);
    var i :| i in all - m.Keys;
  }

  /** A set splits into the part inside `b` and the part outside it. */
  lemma SplitSize(a: set<int>, b: set<int>)
    ensures |a| == |a * b| + |a - b|
  {
    assert a == (a * b) + (a - b);
  }

  lemma SubsetNotLarger(a: set<int>, b: set<int>)
    requires a <= b
    ensures |a| <= |b|
  {
    assert b == a + (b - a);
  }
}

=== FILE: session.dfy ===
/**
  The game session of `APWorldDatesGame` with the DOM removed: the current
  period's events, the display order of the two item lists, the match map,
  the grade each pair shows, the connector lines, the two selections and the
  submitted flag, with one pure transition per event handler or timer
  callback. Rendered elements are identified by their list (date or event)
  and their originalIndex, which is unique within a list.
 */
module Game {
  import opened Wrappers
  import opened Shuffling
  import opened MatchSets

  /** The two lists of items (`data-type` of a rendered element). */
  datatype Kind = Date | Event

  /** The state class a matched item carries: `matched` until the pair is
      submitted, then `correct` or `incorrect`. It is also the style of the
      pair's connector line. */
  datatype Grade = Matched | Correct | Incorrect

  datatype EventPair = EventPair(date: string, event: string)

  datatype Period = Period(title: string, subtitle: Option<string>, events: seq<EventPair>)

  /** A connector line between a date and an event, whose element id is
      `connection-<date>-<event>`. */
  datatype Link = Link(date: int, event: int)

  datatype Session = Session(
    period: Option<string>,     // currentPeriod
    events: seq<EventPair>,     // currentEvents, after shuffling
    dateOrder: seq<int>,        // originalIndex of each rendered date, in display order
    eventOrder: seq<int>,       // originalIndex of each rendered event, in display order
    matches: MatchSet,          // event originalIndex -> date originalIndex
    grades: map<int, Grade>,    // state class of each pair, keyed by its event
    lines: map<Link, Grade>,    // connector lines drawn, with their style
    selectedDate: Option<int>,
    selectedEvent: Option<int>,
    submitted: bool)            // isSubmitted

  /** The state the constructor leaves before any period is chosen. */
  function Initial(): (r: Session)
    ensures r.period.None? && r.events == []
    ensures r.matches == map[] && r.grades == map[] && r.lines == map[]
    ensures r.selectedDate.None? && r.selectedEvent.None? && !r.submitted
  {
    Session(None, [], [], [], map[], map[], map[], None, None, false)
  }

  /* ---------- Reading the state ---------- */

  function Selection(s: Session, kind: Kind): Option<int> {
    match kind
    case Date => s.selectedDate
    case Event => s.selectedEvent
  }

  function Other(kind: Kind): Kind {
    match kind
    case Date => Event
    case Event => Date
  }

  function WithSelection(s: Session, kind: Kind, o: Option<int>): Session {
    match kind
    case Date => s.(selectedDate := o)
    case Event => s.(selectedEvent := o)
  }

  /** The rendered items of one list; `findElementByOriginalIndex` finds an
      element exactly when its index is here. */
  function Order(s: Session, kind: Kind): seq<int> {
    match kind
    case Date => s.dateOrder
    case Event => s.eventOrder
  }

  /** The grade a pair's items show; an item with none of the three classes
      reads as `matched`, as when connectors are redrawn. */
  function GradeOf(grades: map<int, Grade>, e: int): Grade {
    if e in grades then grades[e] else Matched
  }

  /** `l` is the connector of a pair of `m`. */
  predicate IsLinkOf(m: MatchSet, l: Link) {
    l.event in m && m[l.event] == l.date
  }

  /** Everything but the match state is untouched. */
  predicate SameBoard(s: Session, r: Session) {
    r.period == s.period && r.events == s.events
    && r.dateOrder == s.dateOrder && r.eventOrder == s.eventOrder
  }

  /* ---------- Forming matches ---------- */

  /** What `createMatch` does once date `d` and event `e` are selected: the
      pair e -> d is recorded, every pair sharing its date or its event is
      dropped together with its grade and connector, every other pair keeps
      its date, grade and connector, the new pair shows `matched` and has a
      connector, and both selections are cleared. */
  ghost predicate MatchFormed(s: Session, r: Session, d: int, e: int) {
    && e in r.matches && r.matches[e] == d
    && (forall k | k != e :: k in r.matches <==> k in s.matches && s.matches[k] != d)
    && (forall k | k in r.matches && k != e :: r.matches[k] == s.matches[k])
    && e in r.grades && r.grades[e] == Matched
    && (forall k | k != e ::
          k in r.grades <==> k in s.grades && !(k in s.matches && s.matches[k] == d))
    && (forall k | k in r.grades && k != e :: r.grades[k] == s.grades[k])
    && Link(d, e) in r.lines && r.lines[Link(d, e)] == Matched
    && (forall l | l != Link(d, e) ::
          l in r.lines <==> l in s.lines && !(IsLinkOf(s.matches, l) && (l.event == e || l.date == d)))
    && (forall l | l in r.lines && l != Link(d, e) :: r.lines[l] == s.lines[l])
    && r.selectedDate.None? && r.selectedEvent.None?
    && r.submitted == s.submitted
    && SameBoard(s, r)
  }

  /** `createMatch`, called when a date and an event are both selected. */
  function CreateMatch(s: Session): (r: Session)
    requires s.selectedDate.Some? && s.selectedEvent.Some?
    ensures MatchFormed(s, r, s.selectedDate.value, s.selectedEvent.value)
    ensures Injective(s.matches) ==> Injective(r.matches)
  {
    var d, e := s.selectedDate.value, s.selectedEvent.value;
    var evicted := set k | k in s.matches && (k == e || s.matches[k] == d);
    var cut := set l | l in s.lines && IsLinkOf(s.matches, l) && (l.event == e || l.date == d);
    s.(matches := Connect(s.matches, d, e),
       grades := (s.grades - evicted)[e := Matched],
       lines := (s.lines - cut)[Link(d, e) := Matched],
       selectedDate := None,
       selectedEvent := None)
  }

  /** `onItemClick` on the item of list `kind` with originalIndex `idx`. */
  function Click(s: Session, kind: Kind, idx: int): (r: Session)
    // a submitted board ignores clicks
    ensures s.submitted ==> r == s
    // clicking the selected item of a list deselects it and forms no match
    ensures !s.submitted && Selection(s, kind) == Some(idx) ==> r == WithSelection(s, kind, None)
    // clicking another item selects it instead of the previous one
    ensures (!s.submitted && Selection(s, kind) != Some(idx) && Selection(s, Other(kind)).None?)
              ==> r == WithSelection(s, kind, Some(idx))
    // and when the other list already has a selection, the two are matched
    ensures (!s.submitted && kind == Date && s.selectedDate != Some(idx) && s.selectedEvent.Some?)
              ==> MatchFormed(s, r, idx, s.selectedEvent.value)
    ensures (!s.submitted && kind == Event && s.selectedEvent != Some(idx) && s.selectedDate.Some?)
              ==> MatchFormed(s, r, s.selectedDate.value, idx)
  {
    if s.submitted then s
    else
      var t := WithSelection(s, kind, if Selection(s, kind) == Some(idx) then None else Some(idx));
      if t.selectedDate.Some? && t.selectedEvent.Some? then CreateMatch(t) else t
  }

  /** `clearSelections` (also the Escape key). */
  function ClearSelections(s: Session): (r: Session)
    ensures r.selectedDate.None? && r.selectedEvent.None?
    ensures r.(selectedDate := s.selectedDate, selectedEvent := s.selectedEvent) == s
  {
    s.(selectedDate := None, selectedEvent := None)
  }

  /** The drag data `onDragStart` stores: the list and originalIndex of the
      dragged item. */
  datatype DragPayload = DragPayload(kind: Kind, index: int)

  /** `onDrop` of a drag carrying `payload` (`None` when the transfer data
      does not parse) onto the item of list `dropKind` with originalIndex
      `dropIdx`. */
  function Drop(s: Session, payload: Option<DragPayload>, dropKind: Kind, dropIdx: int): (r: Session)
    // ignored when submitted, unparsable, within one list, or when the dragged item is not rendered
    ensures (s.submitted || payload.None? || payload.value.kind == dropKind
               || payload.value.index !in Order(s, payload.value.kind)) ==> r == s
    // otherwise the dragged and the target item are matched as if both had been clicked
    ensures (!s.submitted && payload.Some? && payload.value.kind == Date && dropKind == Event
               && payload.value.index in s.dateOrder)
              ==> MatchFormed(s, r, payload.value.index, dropIdx)
    ensures (!s.submitted && payload.Some? && payload.value.kind == Event && dropKind == Date
               && payload.value.index in s.eventOrder)
              ==> MatchFormed(s, r, dropIdx, payload.value.index)
  {
    if s.submitted || payload.None? then s
    else
      var drag := payload.value;
      if drag.kind == dropKind || drag.index !in Order(s, drag.kind) then s
      else
        var t := ClearSelections(s);
        var u := if drag.kind == Date then t.(selectedDate := Some(drag.index), selectedEvent := Some(dropIdx))
                 else t.(selectedDate := Some(dropIdx), selectedEvent := Some(drag.index));
        CreateMatch(u)
  }

  /* ---------- Submitting and retrying ---------- */

  /** What happens after a submission: nothing (no matches), the completion
      screen (after 1000 ms), the automatic return to play (after 1500 ms), or
      the retry button. */
  datatype Outcome = NoMatches | Complete | AutoContinue | NeedsRetry

  datatype Submission = Submission(session: Session, outcome: Outcome)

  /** `submitAnswers`. */
  function SubmitAnswers(s: Session): (r: Submission)
    // with no matches the button does nothing
    ensures |s.matches| == 0 ==> r == Submission(s, NoMatches)
    // otherwise every pair is kept and graded, correct exactly when its two indexes agree
    ensures |s.matches| > 0 ==>
      && r.session.submitted
      && r.session.matches == s.matches
      && (forall e | e in s.matches ::
            && e in r.session.grades
            && (r.session.grades[e] == Correct <==> s.matches[e] == e)
            && (r.session.grades[e] == Incorrect <==> s.matches[e] != e))
      && (forall k | k !in s.matches ::
            (k in r.session.grades <==> k in s.grades)
            && (k in s.grades ==> r.session.grades[k] == s.grades[k]))
    // each pair's connector is redrawn in the pair's grade; other lines stay as they were
    ensures |s.matches| > 0 ==>
      && (forall l :: l in r.session.lines <==> l in s.lines || IsLinkOf(s.matches, l))
      && (forall l | IsLinkOf(s.matches, l) :: r.session.lines[l] == r.session.grades[l.event])
      && (forall l | l in s.lines && !IsLinkOf(s.matches, l) :: r.session.lines[l] == s.lines[l])
      && r.session.selectedDate == s.selectedDate
      && r.session.selectedEvent == s.selectedEvent
      && SameBoard(s, r.session)
    // the outcome policy
    ensures |s.matches| > 0 ==>
      && (r.outcome == Complete <==> AllCorrect(s.matches) && |s.matches| == |s.events|)
      && (r.outcome == AutoContinue <==> AllCorrect(s.matches) && |s.matches| < |s.events|)
      && (r.outcome == NeedsRetry <==> !AllCorrect(s.matches) || |s.matches| > |s.events|)
  {
    if |s.matches| == 0 then Submission(s, NoMatches)
    else
      Submission(s.(submitted := true, grades := s.grades + Grading(s.matches),
                    lines := Restyle(s.lines, s.matches)),
                 Judge(s.matches, |s.events|))
  }

  /** The state class each pair receives on submission. */
  function Grading(m: MatchSet): (g: map<int, Grade>)
    ensures g.Keys == m.Keys
    ensures forall e | e in m :: (g[e] == Correct <==> m[e] == e) && (g[e] == Incorrect <==> m[e] != e)
  {
    map e | e in m :: if e == m[e] then Correct else Incorrect
  }

  /** Each pair's connector drawn again in the style of its grade; a line
      with the same id is replaced, other lines are left alone. */
  function Restyle(lines: map<Link, Grade>, m: MatchSet): (r: map<Link, Grade>)
    ensures forall l :: l in r <==> l in lines || IsLinkOf(m, l)
    ensures forall l | IsLinkOf(m, l) :: r[l] == Grading(m)[l.event]
    ensures forall l | l in lines && !IsLinkOf(m, l) :: r[l] == lines[l]
  {
    map l | l in lines.Keys + LinkSet(m) ::
      if IsLinkOf(m, l) then (if l.event == l.date then Correct else Incorrect) else lines[l]
  }

  /** The outcome policy: the number of correct pairs is compared with the
      number of pairs, and the number of pairs with the number of events. */
  function Judge(m: MatchSet, n: nat): (o: Outcome)
    ensures o != NoMatches
    ensures o == Complete <==> AllCorrect(m) && |m| == n
    ensures o == AutoContinue <==> AllCorrect(m) && |m| < n
    ensures o == NeedsRetry <==> !AllCorrect(m) || |m| > n
  {
    var correctCount := |CorrectEvents(m)|;
    CorrectCountIsAll(m);
    if correctCount == |m| && |m| == n then Complete
    else if correctCount == |m| && |m| < n then AutoContinue
    else NeedsRetry
  }

  /** The connectors of the pairs of `m`. */
  function LinkSet(m: MatchSet): (r: set<Link>)
    ensures forall l :: l in r <==> IsLinkOf(m, l)
  {
    set e | e in m :: Link(m[e], e)
  }

  /** `retryIncorrect`: drops the pairs graded `incorrect` with their
      connectors and reopens the board. */
  function RetryIncorrect(s: Session): (r: Session)
    ensures forall e :: e in r.matches <==> e in s.matches && GradeOf(s.grades, e) != Incorrect
    ensures forall e | e in r.matches :: r.matches[e] == s.matches[e]
    ensures forall e :: e in r.grades <==> e in s.grades && !(e in s.matches && s.grades[e] == Incorrect)
    ensures forall e | e in r.grades :: r.grades[e] == s.grades[e]
    ensures forall l :: l in r.lines <==>
              l in s.lines && !(IsLinkOf(s.matches, l) && GradeOf(s.grades, l.event) == Incorrect)
    ensures forall l | l in r.lines :: r.lines[l] == s.lines[l]
    ensures !r.submitted
    ensures r.selectedDate == s.selectedDate && r.selectedEvent == s.selectedEvent
    ensures SameBoard(s, r)
  {
    var wrong := set e | e in s.matches && GradeOf(s.grades, e) == Incorrect;
    var cut := set l | l in s.lines && IsLinkOf(s.matches, l) && l.event in wrong;
    s.(matches := s.matches - wrong, grades := s.grades - wrong, lines := s.lines - cut, submitted := false)
  }

  /** `autoRetryPartialCorrect`, run 1500 ms after an all-correct partial
      submission. Hiding the correct items is presentation only. */
  function AutoRetryPartialCorrect(s: Session): (r: Session)
    ensures !r.submitted
    ensures r.(submitted := s.submitted) == s
  {
    s.(submitted := false)
  }

  /** `clearAll`. */
  function ClearAll(s: Session): (r: Session)
    ensures r.matches == map[] && r.grades == map[] && r.lines == map[]
    ensures r.selectedDate.None? && r.selectedEvent.None? && !r.submitted
    ensures SameBoard(s, r)
  {
    s.(matches := map[], grades := map[], lines := map[], selectedDate := None, selectedEvent := None,
       submitted := false)
  }

  /** `redrawAllConnectionLines`, run on every resize: all lines are
      removed and one is drawn per pair whose two items are rendered, in the
      style the pair's items show. */
  function Redraw(s: Session): (r: Session)
    ensures forall l :: l in r.lines <==>
              IsLinkOf(s.matches, l) && l.date in s.dateOrder && l.event in s.eventOrder
    ensures forall l | l in r.lines :: r.lines[l] == GradeOf(s.grades, l.event)
    ensures r.(lines := s.lines) == s
  {
    s.(lines := map l | l in LinkSet(s.matches) && l.date in s.dateOrder && l.event in s.eventOrder ::
                  GradeOf(s.grades, l.event))
  }

  /* ---------- Choosing a period ---------- */

  /** The random draws of the three shuffles a period change performs: the
      period's events, then the date list, then the event list. */
  datatype Draws = Draws(events: seq<nat>, dates: seq<nat>, items: seq<nat>)

  predicate DrawsFit(draws: Draws, n: nat) {
    ValidDraws(n, draws.events) && ValidDraws(n, draws.dates) && ValidDraws(n, draws.items)
  }

  /** The catalog is loaded and has the chosen period. */
  predicate Loads(catalog: Option<map<string, Period>>, id: string) {
    id != "" && catalog.Some? && id in catalog.value
  }

  /** A freshly rendered board of `n` events: both lists shown in some
      order, nothing matched, graded, selected or submitted. */
  ghost predicate FreshBoard(r: Session, n: nat) {
    && |r.events| == n
    && IsDisplayOrder(r.dateOrder, n) && IsDisplayOrder(r.eventOrder, n)
    && r.matches == map[] && r.grades == map[]
    && r.selectedDate.None? && r.selectedEvent.None? && !r.submitted
  }

  /** `onPeriodChange(id)` with connector lines cleared, as every other
      reset (`clearAll`, a redraw) leaves them. */
  function PeriodChange(s: Session, catalog: Option<map<string, Period>>, id: string, draws: Draws): (r: Session)
    requires Loads(catalog, id) ==> DrawsFit(draws, |catalog.value[id].events|)
    // without a period id or loaded data the handler returns at once
    ensures id == "" || catalog.None? ==> r == s
    // an id the catalog lacks is recorded, then reading its data throws
    ensures id != "" && catalog.Some? && id !in catalog.value ==> r == s.(period := Some(id))
    ensures Loads(catalog, id) ==>
      && r.period == Some(id)
      && multiset(r.events) == multiset(catalog.value[id].events)
      && FreshBoard(r, |catalog.value[id].events|)
      && r.lines == map[]
  {
    if id == "" || catalog.None? then s
    else if id !in catalog.value then s.(period := Some(id))
    else
      var events := Shuffle(catalog.value[id].events, draws.events);
      var n := |events|;
      Session(Some(id), events, DisplayOrder(n, draws.dates), DisplayOrder(n, draws.items),
              map[], map[], map[], None, None, false)
  }

  /** `onPeriodChange(id)` as written: it never clears the connector lines,
      so those of the previous board survive the reset. */
  function PeriodChangeAsWritten(s: Session, catalog: Option<map<string, Period>>, id: string, draws: Draws): (r: Session)
    requires Loads(catalog, id) ==> DrawsFit(draws, |catalog.value[id].events|)
    ensures !Loads(catalog, id) ==> r == PeriodChange(s, catalog, id, draws)
    ensures Loads(catalog, id) ==>
      && r.period == Some(id)
      && multiset(r.events) == multiset(catalog.value[id].events)
      && FreshBoard(r, |catalog.value[id].events|)
      && r.lines == s.lines
  {
    var r := PeriodChange(s, catalog, id, draws);
    if Loads(catalog, id) then r.(lines := s.lines) else r
  }

  /** `replay`: the current period is loaded again. */
  function Replay(s: Session, catalog: Option<map<string, Period>>, draws: Draws): (r: Session)
    requires s.period.Some? && Loads(catalog, s.period.value) ==>
               DrawsFit(draws, |catalog.value[s.period.value].events|)
    ensures s.period.None? ==> r == s
    // a current period the catalog lacks is recorded again, then reading its data throws
    ensures s.period.Some? && !Loads(catalog, s.period.value) ==> r == s
    ensures s.period.Some? && Loads(catalog, s.period.value) ==>
      && r.period == s.period
      && multiset(r.events) == multiset(catalog.value[s.period.value].events)
      && FreshBoard(r, |catalog.value[s.period.value].events|)
      && r.lines == map[]
  {
    match s.period
    case None => s
    case Some(id) => PeriodChange(s, catalog, id, draws)
  }

  /** `replay` as written: it reaches the same `onPeriodChange`, so the
      previous board's connector lines survive a replay too. */
  function ReplayAsWritten(s: Session, catalog: Option<map<string, Period>>, draws: Draws): (r: Session)
    requires s.period.Some? && Loads(catalog, s.period.value) ==>
               DrawsFit(draws, |catalog.value[s.period.value].events|)
    ensures s.period.None? ==> r == s
    ensures s.period.Some? && !Loads(catalog, s.period.value) ==> r == s
    ensures s.period.Some? && Loads(catalog, s.period.value) ==>
      && r.period == s.period
      && multiset(r.events) == multiset(catalog.value[s.period.value].events)
      && FreshBoard(r, |catalog.value[s.period.value].events|)
      && r.lines == s.lines
  {
    match s.period
    case None => s
    case Some(id) => PeriodChangeAsWritten(s, catalog, id, draws)
  }
}

=== FILE: shuffling.dfy ===
/**
  The in-place Fisher-Yates shuffle of `shuffleArray`, with the calls to
  `Math.random` replaced by a sequence of draws supplied by the caller, and the
  display orders built from it when a period's items are rendered.
 */
module Shuffling {

  /** The draws one shuffle of `n` elements consumes. The loop runs `i` from
      `n - 1` down to `1` and at each step swaps position `i` with
      `j = Math.floor(Math.random() * (i + 1))`; `draws[i - 1]` is that `j`,
      so it lies in `0 .. i`. */
  predicate ValidDraws(n: nat, draws: seq<nat>) {
    && |draws| == (if n == 0 then 0 else n - 1)
    && forall k :: 0 <= k < |draws| ==> draws[k] <= k + 1
  }

  /** Exchanges the elements at positions `i` and `j`. */
  function Swap<T>(a: seq<T>, i: nat, j: nat): (r: seq<T>)
    requires i < |a| && j < |a|
    ensures |r| == |a| && r[i] == a[j] && r[j] == a[i]
    ensures forall k :: 0 <= k < |a| && k != i && k != j ==> r[k] == a[k]
    ensures multiset(r) == multiset(a)
  {
    a[i := a[j]][j := a[i]]
  }

  /** The loop of `shuffleArray` from index `i` down to `1`. Positions above
      `i` are never touched again, and the result is a rearrangement of `a`. */
  function ShuffleDown<T>(a: seq<T>, i: nat, draws: seq<nat>): (r: seq<T>)
    requires i < |a|
    requires ValidDraws(|a|, draws)
    ensures |r| == |a|
    ensures multiset(r) == multiset(a)
    ensures forall k :: i < k < |a| ==> r[k] == a[k]
    decreases i
  {
    if i == 0 then a
    else ShuffleDown(Swap(a, i, draws[i - 1]), i - 1, draws)
  }

  /** `shuffleArray(array)`: the array after the whole loop has run. */
  function Shuffle<T>(a: seq<T>, draws: seq<nat>): (r: seq<T>)
    requires ValidDraws(|a|, draws)
    ensures |r| == |a|
    ensures multiset(r) == multiset(a)
  {
    if |a| == 0 then a else ShuffleDown(a, |a| - 1, draws)
  }

  /** The originalIndexes `0 .. n - 1` in order, as `renderItems` numbers the
      current events before shuffling them. */
  function Range(n: nat): (r: seq<int>)
    ensures |r| == n
    ensures forall k :: 0 <= k < n ==> r[k] == k
    ensures forall k :: k in r <==> 0 <= k < n
  {
    if n == 0 then [] else Range(n - 1) + [n - 1]
  }

  /** No originalIndex occurs twice. */
  predicate Distinct(s: seq<int>) {
    forall p, q :: 0 <= p < q < |s| ==> s[p] != s[q]
  }

  /** `o` lists every originalIndex of a period of `n` events exactly once. */
  ghost predicate IsDisplayOrder(o: seq<int>, n: nat) {
    && |o| == n
    && Distinct(o)
    && forall k :: k in o <==> 0 <= k < n
  }

  /** The display order of one list of items: the originalIndexes after
      `shuffleArray`. Each rendered element carries a different originalIndex,
      so within one list an element and its index identify each other. */
  function DisplayOrder(n: nat, draws: seq<nat>): (r: seq<int>)
    requires ValidDraws(n, draws)
    ensures IsDisplayOrder(r, n)
  {
    var r := Shuffle(Range(n), draws);
    RangeMultiplicity(n);
    MultiplicityDistinct(r);
    forall k ensures k in r <==> 0 <= k < n {
      assert k in r <==> k in multiset(r);
    }
    r
  }

  /** Every index below `n` occurs once in `Range(n)`, and nothing else occurs. */
  lemma {:induction false} RangeMultiplicity(n: nat)
    ensures forall k :: multiset(Range(n))[k] == if 0 <= k < n then 1 else 0
  {
    if n > 0 {
      RangeMultiplicity(n - 1);
      assert Range(n) == Range(n - 1) + [n - 1];
    }
  }

  /** A sequence in which no value occurs twice has distinct positions. */
  lemma MultiplicityDistinct(s: seq<int>)
    requires forall k :: multiset(s)[k] <= 1
    ensures Distinct(s)
  {
    forall p, q | 0 <= p < q < |s|
      ensures s[p] != s[q]
    {
      // s[p] lies before the cut at q and s[q] after it; one copy is all the multiset allows
      assert s == s[..q] + s[q..];
      assert multiset(s) == multiset(s[..q]) + multiset(s[q..]);
      assert s[..q][p] == s[p] && s[q..][0] == s[q];
      assert multiset(s[..q])[s[p]] >= 1 && multiset(s[q..])[s[q]] >= 1;
      assert multiset(s)[s[p]] == multiset(s[..q])[s[p]] + multiset(s[q..])[s[p]] <= 1;
    }
  }
}

=== FILE: wrappers.dfy ===
/** Optional values: the model's stand-in for JavaScript's `null`. */
module Wrappers {

  datatype Option<+T> = None | Some(value: T)
}
